=== FILE: README.md ===
# pipeProcess.js in Dafny

A model of the text-and-selection logic of `pipeProcess.js`, a small library that
applies a caller-supplied "modifier" to text, either line by line (`line`) or as a
whole (`whole`), on standard input or on every selected file of a directory
(`files`). The model covers:

- **Lines** (`lines.dfy`): splitting on the pattern `/\r?\n/` with JavaScript's
  `split` semantics, `join("\n")`, and the ECMAScript scanning algorithm that
  `split` runs, proved equal to the recursive definition.
- **Selection** (`selection.dfy`): `fileNameMatchesExt` (both as written and as
  intended, see Findings), the whitelist/blacklist rule, and the loop that builds
  the (source, destination) list in listing order.
- **Processing** (`processing.dfy`): the two call shapes, the outputter that
  appends to one buffer per file, the processor's calls in any mix, the joined
  file content, and the per-chunk standard-input handler that prints at once.
- **Batch** (`batch.dfy`): `processFile` and `files` over a file system held as a
  value (directory listings, file contents, and an oracle of calls that throw),
  with the abort-on-first-error policy and the catch-all that logs instead of
  throwing.
- **Common** (`common.dfy`): paths, the exceptions that can occur, results.

Modifiers are pure functions from the data they are given to what they output
and whether they throw. A processor is the sequence of `line`/`whole` calls it
makes. In the batch, the per-file processing is an abstract transform from text
to new content or an exception; `Batch.FileTransform` is the one that the
processing model gives.

Notes on the behaviour as the code has it:

- Splitting drops exactly one carriage return in front of each line feed. A lone
  `\r`, or the first of `\r\r\n`, stays in its line. So it is not true that no line
  keeps a `\r`; `Lines.SplitCarriageReturnExamples` shows both cases.
- The output file has the same name as the source file, in the destination
  directory.

## Model

| member | source | states |
|---|---|---|
| Lines.Split | pipeProcess.js:29-34 | `split(newLineRegex)`, also used at pipeProcess.js:75: never an empty array; its meaning is pinned by `Lines.SplitByPattern` (equal to the engine's scan) and the lemmas below |
| Lines.Join | pipeProcess.js:82 | `join("\n")`: the result starts with the first piece, and is "" for no pieces |
| Lines.JoinEndsWithLast | pipeProcess.js:82 | the joined text ends with the last piece |
| Lines.SplitByPattern | pipeProcess.js:29 | splitting with the engine's scan for `/\r?\n/` gives exactly the pieces of `Split` |
| Lines.ScanIsSplit | pipeProcess.js:29 | from any point of the scan with no match since the piece start, the remaining pieces are the split of the rest |
| Lines.SplitCount | pipeProcess.js:34 | a split has one more piece than the text has line feeds, so "" gives one piece |
| Lines.SplitTrailingEmpty | pipeProcess.js:34 | a text ending in a line feed gives at least two pieces, the last of them empty, so line mode hands the modifier a final "" |
| Lines.SplitPiecesHaveNoNewline | pipeProcess.js:29 | no piece of a split contains a line feed |
| Lines.SplitSingle | pipeProcess.js:29 | a text splits into itself alone if and only if it has no line feed |
| Lines.JoinSplit | pipeProcess.js:75-82 | splitting then joining with "\n" gives the text with every "\r\n" replaced by "\n" and nothing else changed |
| Lines.JoinSplitIdentity | pipeProcess.js:75-82 | for text without carriage returns, splitting then joining with "\n" is the identity |
| Lines.SplitJoin | pipeProcess.js:82 | joining lines with "\n" and splitting again gives the lines back when no line has a line feed and none but the last ends in "\r" |
| Lines.SplitLine | pipeProcess.js:29 | a line without line feed and not ending in "\r", then "\n", is the first piece and the rest splits on its own |
| Lines.SplitStep | pipeProcess.js:29 | a match of the pattern with none since the piece start closes the piece exactly there |
| Lines.SplitUnixExamples | pipeProcess.js:34 | "a\nb\nc" gives a, b, c; "a\nb\n" gives a, b and a trailing empty piece; "" gives one empty piece |
| Lines.SplitCarriageReturnExamples | pipeProcess.js:29 | "a\r\nb" gives a, b; a lone "\r" stays; of "\r\r\n" only one "\r" is dropped |
| Selection.EndsWith | pipeProcess.js:62 | `name.endsWith(ext)`: always true for ""; when true, the extension is no longer than the name and their last characters agree |
| Selection.EndsWithIndexwise | pipeProcess.js:62 | `name.endsWith(ext)` holds exactly when the last characters of the name are those of the extension, position by position |
| Selection.FindSuffix | pipeProcess.js:62 | `find` returns nothing exactly when no extension is a suffix, otherwise the first extension in array order that is one |
| Selection.FileNameMatchesExt | pipeProcess.js:60-63 | a name matches if and only if some extension in the array is a suffix of it; never for an empty array |
| Selection.MatchesExtAsWritten | pipeProcess.js:60-63 | as written, a name matches exactly when the first extension in array order that is a suffix of it is not "", and it never matches where the intended test does not |
| Selection.MatchesExtAsWrittenAgrees | pipeProcess.js:62 | when no extension is the empty string, the code as written and the intended test agree on every name |
| Selection.EmptyExtensionIsFalsy | pipeProcess.js:62 | with "" listed first, "a.js" matches by the intended test but not as written |
| Selection.Selected | pipeProcess.js:98 | the selection rule with the corrected test: nothing is selected with an empty whitelist or with "" in the blacklist |
| Selection.SelectedMeaning | pipeProcess.js:98 | the corrected rule holds exactly when some whitelist entry is a suffix of the name and no blacklist entry is |
| Selection.SelectedAsWritten | pipeProcess.js:98 | the selection rule as written: it selects nothing unless the whitelist's first entry is not "", and a blacklist starting with "" leaves only the whitelist test |
| Selection.SelectedAsWrittenAgrees | pipeProcess.js:98 | with no "" in either list, the selection rule as written and with the corrected test choose the same names |
| Selection.SelectedEmptyFirst | pipeProcess.js:98 | as written, a whitelist whose first entry is "" selects no name, and a blacklist whose first entry is "" excludes no name, for every name and every other list |
| Selection.SelectedEmptyExtension | pipeProcess.js:98 | on "a.js": whitelist [""] selects it with the corrected test but not as written, and blacklist [""] excludes it with the corrected test but not as written |
| Selection.Select | pipeProcess.js:96-105 | every pair comes from a listed, selected name, with both paths built from that name; never more pairs than entries |
| Selection.SelectAppend | pipeProcess.js:97-105 | selection of a concatenated listing is the concatenation of the selections, so listing order is kept |
| Selection.SelectOne | pipeProcess.js:98-104 | one entry gives its pair exactly when whitelisted and not blacklisted, and nothing otherwise |
| Selection.SelectMembership | pipeProcess.js:98 | a listed entry gets a pair if and only if it matches the whitelist and no blacklist entry |
| Selection.SelectExample | pipeProcess.js:51-52 | of x.js, x.test.js and y.txt with [".js"] and [".test.js"], only x.js is selected |
| Selection.SelectFiles | pipeProcess.js:96-105 | the loop over the listing builds exactly the selection |
| Processing.Inputs | pipeProcess.js:75-76 | `lineFunc` hands the modifier the pieces of the split text, one more than the text has line feeds; `wholeFunc` hands it the text once |
| Processing.Feed | pipeProcess.js:75 | the outputter only appends, and the loop ends without an exception exactly when no invocation throws |
| Processing.FeedEmitsAll | pipeProcess.js:74-75 | without an exception the buffer gains every invocation's output, in invocation order |
| Processing.FeedStopsAtFirstThrow | pipeProcess.js:75 | at the first throwing invocation the buffer holds the earlier outputs plus what that one output, and no later data is handed over |
| Processing.ModeInvocations | pipeProcess.js:75-76 | line mode invokes the modifier once per piece in piece order (newlines + 1 times); whole mode once with the untouched text |
| Processing.RunCalls | pipeProcess.js:79 | the processor's calls only append to the buffer and end without an exception exactly when every call succeeds |
| Processing.RunCallsEmitsAll | pipeProcess.js:73-79 | any mix of line/whole calls leaves every call's output in the buffer, in call order |
| Processing.BufferIsolation | pipeProcess.js:73 | earlier buffer content only stays in front; a fresh buffer per file keeps other files' output out |
| Processing.ProcessText | pipeProcess.js:73-82 | processing succeeds exactly when every call succeeds, and otherwise fails with the modifier's exception |
| Processing.RunCallsStopsAtFirstThrow | pipeProcess.js:73-79 | when call c is the first whose modifier throws, the calls before it complete in order and call c runs on their output; no later call runs |
| Processing.RunCallsPrefix | pipeProcess.js:79 | calls that all succeed hand the run over to the remaining calls, with their output appended in call order |
| Processing.ProcessTextFirstThrow | pipeProcess.js:73-82 | a failed file fails with exactly the exception of the first throwing invocation, the one the catch-all at pipeProcess.js:114-115 logs |
| Processing.ProcessTextContent | pipeProcess.js:82 | the content is all output joined with "\n", empty when nothing was output, and splits back into the output lines |
| Processing.OnChunk | pipeProcess.js:33-37 | on standard input the printed lines are the modifier's outputs for the chunk's pieces (or the whole chunk), and the chunk succeeds exactly when no invocation throws |
| Processing.ShoutExample | pipeProcess.js:75-82 | upper-casing each line of "foo\nbar" produces "FOO\nBAR" |
| Batch.FileTransform | pipeProcess.js:73-82 | the per-file processing: it gives content exactly when every call of the processor succeeds, and otherwise a modifier's exception |
| Batch.ReadDir | pipeProcess.js:93 | `readdirSync(srcDir)`: the directory's listing when the directory exists and listing is allowed, otherwise the listing failure |
| Batch.ReadText | pipeProcess.js:70 | `readFileSync(srcPath).toString()`: the file's content when it exists and reading is allowed, otherwise the read failure |
| Batch.MakeDirIfAbsent | pipeProcess.js:108-109 | the destination directory exists afterwards, nothing else changes, and it fails only when the directory was missing and cannot be created |
| Batch.WriteText | pipeProcess.js:82 | a write succeeds exactly when the directory exists and the write is allowed, and then replaces the file's content and lists it |
| Batch.ProcessFile | pipeProcess.js:68-83 | a file succeeds exactly when reading, processing and writing succeed; then only its destination changes, to the processed content |
| Batch.RunTasks | pipeProcess.js:112 | the batch completes at most all tasks, and reports no error exactly when it completes all of them |
| Batch.RunTasksFrame | pipeProcess.js:112 | only destinations of completed tasks and their directories' listings change; no listing loses a name |
| Batch.RunTasksInDir | pipeProcess.js:112 | tasks that all write into one directory change no file and no listing elsewhere |
| Batch.RunTasksStopsAtFirstError | pipeProcess.js:112-116 | after k completed tasks the state is what those k produce, and task k threw on it; no later task starts |
| Batch.SecondOfThreeFails | pipeProcess.js:112-116 | when the second of three sources is missing, the first output is written, the third is untouched, and the error is reported |
| Batch.SelectConsistent | pipeProcess.js:100-103 | with distinct directories no selected task reads another's destination, and equal destinations share a source |
| Batch.RunTasksKeepsSources | pipeProcess.js:112 | a run never changes what any task would read and produce |
| Batch.RunTasksSettles | pipeProcess.js:112 | after a successful run each destination holds its task's output in a directory that lists it |
| Batch.RerunIsNoOp | pipeProcess.js:82 | rerunning over a settled file system completes and changes nothing |
| Batch.Files | pipeProcess.js:87-117 | only files and the listing of the destination directory can change; a failed listing is reported and changes nothing |
| Batch.FilesIdempotent | pipeProcess.js:108-112 | running the same successful `files` call again gives identical files |
| Batch.EndToEndExample | pipeProcess.js:96-112 | in.js holding "foo\nbar", upper-cased line by line, gives in.js in the destination directory holding "FOO\nBAR" |

## Findings

| source | as written | input that shows it | evidently intended | confidence | as-written member | corrected member |
|---|---|---|---|---|---|---|
| pipeProcess.js:62 | the test returns the truthiness of the element `find` found, and the empty string is falsy | name "a.js" with extensions ["", ".js"] (or [""]) gives false (`Selection.EmptyExtensionIsFalsy`) | true whenever some extension is a suffix of the name, as the comment on line 60 says | medium, not executed | Selection.MatchesExtAsWritten | Selection.FileNameMatchesExt |

`Selection.MatchesExtAsWritten` is the code as written and
`Selection.SelectedAsWritten` the selection rule built on it; the selection list
uses the corrected test. `Selection.SelectedAsWrittenAgrees` shows the two rules
choose the same names unless an extension is the empty string, and
`Selection.SelectedEmptyFirst` shows how they part when one comes first.

## Left out

- Selection.Select: uses the corrected test, so it can differ from the selection at pipeProcess.js:98 only when the whitelist or blacklist holds the empty string; `Selection.SelectedEmptyExtension` gives inputs where it does (see Findings).
- Selection.SelectOne: the same corrected test; can differ from pipeProcess.js:98 only when an extension is the empty string.
- Selection.SelectMembership: the same corrected test; can differ from pipeProcess.js:98 only when an extension is the empty string.
- Selection.SelectFiles: the same corrected test in the loop; can differ from pipeProcess.js:98 only when an extension is the empty string.
- Processing.RunCalls: a modifier's exception ends the processor; a processor that catches the exception escaping `lineFunc` or `wholeFunc` (pipeProcess.js:75-76) and goes on calling, so that pipeProcess.js:82 writes its partly filled buffer, is not modelled, because the processor's own control flow is not part of the model.
- Processing.ProcessText: for the same reason, a processor that catches a modifier's exception and still returns normally is not covered; `Batch.ProcessFile` itself accepts any transform.

- Opening standard input, its `error` handler and `destroy` (pipeProcess.js:8-9, 89): event-driven stream I/O. Only one chunk's handler is modelled; how the stream is cut into chunks is not.
- Console output (pipeProcess.js:28, 115): the printed lines are the `Run` that `Processing.OnChunk` returns; the logged error is the `error` of the batch outcome.
- Batch.RunTasksFrame: a failed `writeFileSync` (pipeProcess.js:82) is modelled as failing before it opens the destination, so the failing task's destination is unchanged; in Node a write that fails after opening (a full disk) leaves it truncated or partly written, which this frame does not cover.
- Batch.RunTasksStopsAtFirstError: for the same reason, the final state is what the completed tasks produce only under the assumption that the failing task's write did not get to open its destination.
- Batch.ProcessFile: the same assumption; an `Err` result leaves the file system as it was.
- Real file-system calls, Buffer-to-text decoding and `path.join` normalisation: the file system is a value, reads and writes fail according to an oracle, and a path is the opaque pair (directory, name).
- Directory entries that are themselves directories: selection looks at names only, and reading such an entry fails like any unreadable file.
- The position a newly written name takes in its directory's listing: it is appended.
- `existsSync` finding a plain file named like the destination directory: not modelled.
- Modifiers and processors with hidden state, output values that are not strings, and outputter calls made after the processor returns: a modifier is a pure function and a processor a fixed sequence of calls. A processor that throws outside a modifier behaves like a `whole` call whose modifier throws.
- JavaScript strings are UTF-16 code units; the model uses Dafny characters, which makes no difference for "\r" and "\n".

=== FILE: batch.dfy ===
/** `processFile` and `files`: the sequential batch over the selected files, with the
    file system as a value and the operations that throw given by an oracle. */
module Batch {
  import opened Common
  import opened Selection
  import opened Processing

  /** What happens to one file's text between reading and writing: the new content,
      or the exception that stops the file. */
  type Transform = Text -> Result<Text>

  /** The transform a processor makes of a file's text: its calls run on a fresh
      buffer, which is then joined with "\n". */
  function FileTransform(calls: seq<Call>): (process: Transform)
    ensures forall text :: process(text).Ok? <==> forall c :: 0 <= c < |calls| ==> CallSucceeds(text, calls[c])
    ensures forall text :: process(text).Err? ==> process(text).failure.Threw?
  {
    text => ProcessText(text, calls)
  }

  /** A file-system call that can throw. */
  datatype Op = List(dir: Text) | Mkdir(dir: Text) | Read(path: Path) | Write(path: Path)

  /** The file system as the batch sees it: each directory's entry names in the order
      `readdirSync` lists them, the content of every readable file, and the calls that
      throw for reasons outside the model (permissions, a full disk, a missing parent
      directory, an entry that is a directory, ...). */
  datatype FileSystem = FileSystem(listing: map<Text, seq<Text>>, files: map<Path, Text>, failing: set<Op>)

  /** What a path holds, if anything. */
  function FileAt(fs: FileSystem, p: Path): Option<Text>
  {
    if p in fs.files then Some(fs.files[p]) else None
  }

  /** `readdirSync(dir)`. */
  function ReadDir(fs: FileSystem, dir: Text): (r: Result<seq<Text>>)
    ensures r.Ok? <==> dir in fs.listing && List(dir) !in fs.failing
    ensures r.Ok? ==> r.value == fs.listing[dir]
    ensures r.Err? ==> r.failure == ListFailed(dir)
  {
    if dir !in fs.listing || List(dir) in fs.failing then Err(ListFailed(dir))
    else Ok(fs.listing[dir])
  }

  /** `if (!existsSync(dir)) mkdirSync(dir)`: an existing directory is left alone. */
  function MakeDirIfAbsent(fs: FileSystem, dir: Text): (r: Result<FileSystem>)
    ensures r.Ok? ==> dir in r.value.listing && r.value.files == fs.files && r.value.failing == fs.failing
    ensures r.Ok? ==> forall d :: d in fs.listing ==> d in r.value.listing && r.value.listing[d] == fs.listing[d]
    ensures r.Ok? ==> r.value.listing.Keys == fs.listing.Keys + {dir}
    ensures r.Err? <==> dir !in fs.listing && Mkdir(dir) in fs.failing
  {
    if dir in fs.listing then Ok(fs)
    else if Mkdir(dir) in fs.failing then Err(MakeDirFailed(dir))
    else Ok(fs.(listing := fs.listing[dir := []]))
  }

  /** `readFileSync(p).toString()`. */
  function ReadText(fs: FileSystem, p: Path): (r: Result<Text>)
    ensures r.Ok? <==> FileAt(fs, p).Some? && Read(p) !in fs.failing
    ensures r.Ok? ==> Some(r.value) == FileAt(fs, p)
    ensures r.Err? ==> r.failure == ReadFailed(p)
  {
    if p !in fs.files || Read(p) in fs.failing then Err(ReadFailed(p)) else Ok(fs.files[p])
  }

  /** No directory and no listed name disappears. */
  predicate ListingGrows(before: FileSystem, after: FileSystem)
  {
    && before.listing.Keys <= after.listing.Keys
    && forall d, n :: d in before.listing && n in before.listing[d] ==> n in after.listing[d]
  }

  function AddName(names: seq<Text>, name: Text): (r: seq<Text>)
    ensures name in r && forall n :: n in names ==> n in r
  {
    if name in names then names else names + [name]
  }

  predicate CanWrite(fs: FileSystem, p: Path)
  {
    p.dir in fs.listing && Write(p) !in fs.failing
  }

  /** `writeFileSync(p, content)`: creates or overwrites the file, which then appears
      in its directory's listing; it throws when the directory does not exist. */
  function WriteText(fs: FileSystem, p: Path, content: Text): (r: Result<FileSystem>)
    ensures r.Ok? <==> CanWrite(fs, p)
    ensures r.Ok? ==> r.value.files == fs.files[p := content] && r.value.failing == fs.failing
    ensures r.Ok? ==> r.value.listing.Keys == fs.listing.Keys && p.name in r.value.listing[p.dir]
    ensures r.Ok? ==> ListingGrows(fs, r.value)
    ensures r.Ok? ==> forall d :: d in fs.listing && d != p.dir ==> r.value.listing[d] == fs.listing[d]
    ensures r.Err? ==> r.failure == WriteFailed(p)
  {
    if !CanWrite(fs, p) then Err(WriteFailed(p))
    else Ok(fs.(files := fs.files[p := content],
                listing := fs.listing[p.dir := AddName(fs.listing[p.dir], p.name)]))
  }

  /** The content `processFile` would write for a task, if reading and processing
      succeed. */
  function Expected(fs: FileSystem, task: Task, process: Transform): Option<Text>
  {
    match ReadText(fs, task.src)
    case Err(_) => None
    case Ok(text) =>
      match process(text)
      case Err(_) => None
      case Ok(content) => Some(content)
  }

  /** `processFile(src, out, processor)`: read the source, run the processor on a fresh
      buffer, write the joined buffer to the destination. It may throw at each step;
      a failing write is taken to fail before it opens the destination, which it then
      leaves as it was. */
  function ProcessFile(fs: FileSystem, task: Task, process: Transform): (r: Result<FileSystem>)
    ensures r.Ok? <==> Expected(fs, task, process).Some? && CanWrite(fs, task.out)
    ensures r.Ok? ==> r.value.files == fs.files[task.out := Expected(fs, task, process).value]
    ensures r.Ok? ==> r.value.failing == fs.failing && r.value.listing.Keys == fs.listing.Keys
    ensures r.Ok? ==> task.out.name in r.value.listing[task.out.dir] && ListingGrows(fs, r.value)
    ensures r.Ok? ==> forall d :: d in fs.listing && d != task.out.dir ==> r.value.listing[d] == fs.listing[d]
    ensures r.Err? ==> || r.failure == ReadFailed(task.src)
                       || (task.src in fs.files && process(fs.files[task.src]) == Err(r.failure))
                       || r.failure == WriteFailed(task.out)
  {
    match ReadText(fs, task.src)
    case Err(f) => Err(f)
    case Ok(text) =>
      match process(text)
      case Err(f) => Err(f)
      case Ok(content) => WriteText(fs, task.out, content)
  }

  /** Where a batch stopped: the file system afterwards, how many tasks completed, and
      the exception that the catch-all logged, if any. */
  datatype Outcome = Outcome(fs: FileSystem, processed: nat, error: Option<Failure>)

  /** `filesToProccess.forEach(f => processFile(...))`: the tasks one after another, in
      order; the first exception abandons the rest. Only destinations of completed
      tasks change, and the listings of their directories, which gain their names. */
  function RunTasks(fs: FileSystem, tasks: seq<Task>, process: Transform): (o: Outcome)
    ensures o.processed <= |tasks|
    ensures o.error.None? <==> o.processed == |tasks|
    decreases |tasks|
  {
    if |tasks| == 0 then Outcome(fs, 0, None)
    else
      match ProcessFile(fs, tasks[0], process)
      case Err(f) => Outcome(fs, 0, Some(f))
      case Ok(next) =>
        var o := RunTasks(next, tasks[1..], process);
        Outcome(o.fs, o.processed + 1, o.error)
  }

  /** A batch changes only the destinations of the tasks it completed and the listings
      of their directories, which only grow; the oracle stays as it was. */
  lemma {:induction false} RunTasksFrame(fs: FileSystem, tasks: seq<Task>, process: Transform)
    ensures var o := RunTasks(fs, tasks, process);
            && o.fs.failing == fs.failing && o.fs.listing.Keys == fs.listing.Keys && ListingGrows(fs, o.fs)
            && (forall p :: (forall j :: 0 <= j < o.processed ==> tasks[j].out != p) ==> FileAt(o.fs, p) == FileAt(fs, p))
            && (forall d :: d in fs.listing && (forall j :: 0 <= j < o.processed ==> tasks[j].out.dir != d)
                            ==> o.fs.listing[d] == fs.listing[d])
    decreases |tasks|
  {
    if |tasks| > 0 && ProcessFile(fs, tasks[0], process).Ok? {
      var next := ProcessFile(fs, tasks[0], process).value;
      var rest := tasks[1..];
      var o := RunTasks(fs, tasks, process);
      var o' := RunTasks(next, rest, process);
      assert o.fs == o'.fs && o.processed == o'.processed + 1;
      ProcessFileFrame(fs, tasks[0], process);
      RunTasksFrame(next, rest, process);
      ListingGrowsTrans(fs, next, o.fs);
      assert forall j :: 0 <= j < o'.processed ==> rest[j] == tasks[j + 1];
    }
  }

  /** One completed file changes only its destination and its directory's listing. */
  lemma ProcessFileFrame(fs: FileSystem, task: Task, process: Transform)
    requires ProcessFile(fs, task, process).Ok?
    ensures var next := ProcessFile(fs, task, process).value;
            && next.failing == fs.failing && next.listing.Keys == fs.listing.Keys && ListingGrows(fs, next)
            && (forall p :: p != task.out ==> FileAt(next, p) == FileAt(fs, p))
            && (forall d :: d in fs.listing && d != task.out.dir ==> next.listing[d] == fs.listing[d])
  {
  }

  lemma ListingGrowsTrans(a: FileSystem, b: FileSystem, c: FileSystem)
    requires ListingGrows(a, b) && ListingGrows(b, c)
    ensures ListingGrows(a, c)
  {
  }

  /** Abort on the first error: if the batch stopped after `k` tasks, those `k` ran
      successfully and produced the final file system, and the `k`-th task threw on
      it; no task after it was started. */
  lemma {:induction false} RunTasksStopsAtFirstError(fs: FileSystem, tasks: seq<Task>, process: Transform)
    ensures var o := RunTasks(fs, tasks, process);
            && RunTasks(fs, tasks[..o.processed], process) == Outcome(o.fs, o.processed, None)
            && (o.error.Some? ==> ProcessFile(o.fs, tasks[o.processed], process) == Err(o.error.value))
    decreases |tasks|
  {
    var o := RunTasks(fs, tasks, process);
    if |tasks| == 0 {
      assert tasks[..0] == [];
    } else {
      match ProcessFile(fs, tasks[0], process)
      case Err(f) =>
        assert tasks[..0] == [];
      case Ok(next) =>
        RunTasksStopsAtFirstError(next, tasks[1..], process);
        var k := o.processed;
        assert tasks[..k][0] == tasks[0];
        assert tasks[..k][1..] == tasks[1..][..k - 1];
    }
  }

  /** Tasks that never read what another writes, and that write a destination only
      with one source: true of every selection whose two directories differ. */
  predicate Consistent(tasks: seq<Task>)
  {
    && (forall i, j :: 0 <= i < |tasks| && 0 <= j < |tasks| ==> tasks[i].out != tasks[j].src)
    && (forall i, j :: 0 <= i < |tasks| && 0 <= j < |tasks| && tasks[i].out == tasks[j].out
                       ==> tasks[i].src == tasks[j].src)
  }

  lemma SelectConsistent(srcDir: Text, outDir: Text, names: seq<Text>, whitelist: seq<Text>, blacklist: seq<Text>)
    requires srcDir != outDir
    ensures Consistent(Select(srcDir, outDir, names, whitelist, blacklist))
  {
    var tasks := Select(srcDir, outDir, names, whitelist, blacklist);
    assert forall i :: 0 <= i < |tasks| ==> tasks[i] in tasks;
  }

  /** The state a successful batch leaves behind, as seen by a second run: every task
      reads and processes as it did, writes the content its destination already holds,
      into a directory that already lists it. */
  predicate Settled(fs: FileSystem, tasks: seq<Task>, process: Transform)
  {
    forall j :: 0 <= j < |tasks| ==> SettledTask(fs, tasks[j], process)
  }

  predicate SettledTask(fs: FileSystem, t: Task, process: Transform)
  {
    && Expected(fs, t, process).Some?
    && FileAt(fs, t.out) == Expected(fs, t, process)
    && CanWrite(fs, t.out)
    && t.out.name in fs.listing[t.out.dir]
  }

  /** What a task would write depends only on its source file and the oracle. */
  lemma ExpectedFromSource(fs: FileSystem, fs': FileSystem, task: Task, process: Transform)
    requires FileAt(fs, task.src) == FileAt(fs', task.src) && fs.failing == fs'.failing
    ensures Expected(fs, task, process) == Expected(fs', task, process)
  {
    assert ReadText(fs, task.src) == ReadText(fs', task.src);
  }

  /** A run never writes a source, so afterwards every task would still read and
      produce what it did at the start. */
  lemma RunTasksKeepsSources(fs: FileSystem, tasks: seq<Task>, process: Transform)
    requires forall i, j :: 0 <= i < |tasks| && 0 <= j < |tasks| ==> tasks[i].out != tasks[j].src
    ensures forall j :: 0 <= j < |tasks| ==>
              Expected(RunTasks(fs, tasks, process).fs, tasks[j], process) == Expected(fs, tasks[j], process)
  {
    var o := RunTasks(fs, tasks, process);
    RunTasksFrame(fs, tasks, process);
    forall j | 0 <= j < |tasks|
      ensures Expected(o.fs, tasks[j], process) == Expected(fs, tasks[j], process)
    {
      var src := tasks[j].src;
      assert forall i :: 0 <= i < o.processed ==> tasks[i].out != src;
      ExpectedFromSource(o.fs, fs, tasks[j], process);
    }
  }

  /** After a successful run each destination holds the content its task produced,
      in a directory that lists it: a second run finds everything settled. */
  lemma {:induction false} RunTasksSettles(fs: FileSystem, tasks: seq<Task>, process: Transform)
    requires Consistent(tasks)
    requires RunTasks(fs, tasks, process).error.None?
    ensures Settled(RunTasks(fs, tasks, process).fs, tasks, process)
    decreases |tasks|
  {
    if |tasks| > 0 {
      var o := RunTasks(fs, tasks, process);
      var t := tasks[0];
      var next := ProcessFile(fs, t, process).value;
      var rest := tasks[1..];
      assert Consistent(rest);
      RunTasksSettles(next, rest, process);
      assert o.fs == RunTasks(next, rest, process).fs;
      RunTasksKeepsSources(fs, tasks, process);
      forall j | 0 <= j < |tasks|
        ensures SettledTask(o.fs, tasks[j], process)
      {
        if j > 0 {
          assert tasks[j] == rest[j - 1];
        } else {
          SettlesFirst(fs, tasks, process);
        }
      }
    }
  }

  /** The first destination after a successful run: rewritten by a later task with the
      same source, or left as the first task wrote it. */
  lemma SettlesFirst(fs: FileSystem, tasks: seq<Task>, process: Transform)
    requires |tasks| > 0 && Consistent(tasks)
    requires RunTasks(fs, tasks, process).error.None?
    requires Settled(RunTasks(ProcessFile(fs, tasks[0], process).value, tasks[1..], process).fs, tasks[1..], process)
    ensures SettledTask(RunTasks(fs, tasks, process).fs, tasks[0], process)
  {
    var o := RunTasks(fs, tasks, process);
    var t := tasks[0];
    var next := ProcessFile(fs, t, process).value;
    var rest := tasks[1..];
    assert o.fs == RunTasks(next, rest, process).fs;
    RunTasksKeepsSources(fs, tasks, process);
    RunTasksFrame(next, rest, process);
    if exists i :: 0 <= i < |rest| && rest[i].out == t.out {
      var i :| 0 <= i < |rest| && rest[i].out == t.out;
      assert rest[i] == tasks[i + 1];
      assert SettledTask(o.fs, rest[i], process);
      assert rest[i].src == t.src;
      ExpectedFromSource(o.fs, o.fs, rest[i], process);
      assert Expected(o.fs, rest[i], process) == Expected(o.fs, t, process);
    } else {
      assert FileAt(o.fs, t.out) == FileAt(next, t.out);
      assert t.out.dir in next.listing;
      assert t.out.dir in o.fs.listing;
      assert t.out.name in o.fs.listing[t.out.dir];
    }
  }

  /** Writing what a file already holds, where it is already listed, changes nothing. */
  lemma RewriteIsNoOp(fs: FileSystem, p: Path, content: Text)
    requires CanWrite(fs, p) && FileAt(fs, p) == Some(content) && p.name in fs.listing[p.dir]
    ensures WriteText(fs, p, content) == Ok(fs)
  {
    assert fs.files[p := content] == fs.files;
    assert fs.listing[p.dir := fs.listing[p.dir]] == fs.listing;
  }

  /** A second run over a settled file system completes and leaves it as it is. */
  lemma {:induction false} RerunIsNoOp(fs: FileSystem, tasks: seq<Task>, process: Transform)
    requires Settled(fs, tasks, process)
    ensures RunTasks(fs, tasks, process) == Outcome(fs, |tasks|, None)
    decreases |tasks|
  {
    if |tasks| > 0 {
      var t := tasks[0];
      RewriteIsNoOp(fs, t.out, Expected(fs, t, process).value);
      assert ProcessFile(fs, t, process) == Ok(fs);
      assert Settled(fs, tasks[1..], process) by {
        assert forall j :: 0 <= j < |tasks[1..]| ==> tasks[1..][j] == tasks[j + 1];
      }
      RerunIsNoOp(fs, tasks[1..], process);
    }
  }

  /** `files(srcDir, outDir, whitelist, blacklist, processor)` with its catch-all: list
      the source directory, select, create the destination directory if absent, then
      run the tasks. Whatever throws is logged and ends the call; it never escapes.
      Only files inside `outDir` can change, and only `outDir`'s listing. */
  function Files(fs: FileSystem, srcDir: Text, outDir: Text, whitelist: seq<Text>, blacklist: seq<Text>,
                 process: Transform): (o: Outcome)
    ensures o.fs.failing == fs.failing
    ensures forall p: Path :: p.dir != outDir ==> FileAt(o.fs, p) == FileAt(fs, p)
    ensures forall d :: d in fs.listing && d != outDir ==> d in o.fs.listing && o.fs.listing[d] == fs.listing[d]
    ensures ReadDir(fs, srcDir).Err? ==> o.error == Some(ListFailed(srcDir)) && o.fs == fs
  {
    match ReadDir(fs, srcDir)
    case Err(f) => Outcome(fs, 0, Some(f))
    case Ok(names) =>
      var tasks := Select(srcDir, outDir, names, whitelist, blacklist);
      match MakeDirIfAbsent(fs, outDir)
      case Err(f) => Outcome(fs, 0, Some(f))
      case Ok(ready) =>
        SelectWritesOutDir(srcDir, outDir, names, whitelist, blacklist);
        RunTasksInDir(ready, tasks, outDir, process);
        RunTasks(ready, tasks, process)
  }

  lemma SelectWritesOutDir(srcDir: Text, outDir: Text, names: seq<Text>, whitelist: seq<Text>, blacklist: seq<Text>)
    ensures var tasks := Select(srcDir, outDir, names, whitelist, blacklist);
            forall j :: 0 <= j < |tasks| ==> tasks[j].out.dir == outDir
  {
    var tasks := Select(srcDir, outDir, names, whitelist, blacklist);
    assert forall j :: 0 <= j < |tasks| ==> tasks[j] in tasks;
  }

  /** Tasks that all write into `dir` change no file and no listing elsewhere. */
  lemma RunTasksInDir(fs: FileSystem, tasks: seq<Task>, dir: Text, process: Transform)
    requires forall j :: 0 <= j < |tasks| ==> tasks[j].out.dir == dir
    ensures var o := RunTasks(fs, tasks, process);
            && o.fs.failing == fs.failing
            && (forall p: Path :: p.dir != dir ==> FileAt(o.fs, p) == FileAt(fs, p))
            && (forall d :: d in fs.listing && d != dir ==> d in o.fs.listing && o.fs.listing[d] == fs.listing[d])
  {
    RunTasksFrame(fs, tasks, process);
  }

  /** Running the same `files` call twice gives the same files: the second run
      overwrites each destination with the content it already holds. */
  lemma FilesIdempotent(fs: FileSystem, srcDir: Text, outDir: Text, whitelist: seq<Text>, blacklist: seq<Text>,
                        process: Transform)
    requires srcDir != outDir
    requires Files(fs, srcDir, outDir, whitelist, blacklist, process).error.None?
    ensures var first := Files(fs, srcDir, outDir, whitelist, blacklist, process);
            Files(first.fs, srcDir, outDir, whitelist, blacklist, process) == first
  {
    var first := Files(fs, srcDir, outDir, whitelist, blacklist, process);
    var names := ReadDir(fs, srcDir).value;
    var tasks := Select(srcDir, outDir, names, whitelist, blacklist);
    var ready := MakeDirIfAbsent(fs, outDir).value;
    assert first == RunTasks(ready, tasks, process);
    SelectConsistent(srcDir, outDir, names, whitelist, blacklist);
    RunTasksSettles(ready, tasks, process);
    RunTasksKeepsSources(ready, tasks, process);
    RunTasksFrame(ready, tasks, process);
    assert ReadDir(first.fs, srcDir) == Ok(names);
    assert MakeDirIfAbsent(first.fs, outDir) == Ok(first.fs);
    RerunIsNoOp(first.fs, tasks, process);
  }

  /** Abort on the first error, on three files whose second source is missing: the
      first file's output is already written, the third file is never reached, and
      the error is reported rather than thrown. */
  lemma SecondOfThreeFails(fs: FileSystem, tasks: seq<Task>, process: Transform)
    requires |tasks| == 3
    requires ProcessFile(fs, tasks[0], process).Ok?
    requires tasks[1].src !in fs.files && tasks[1].src != tasks[0].out
    requires tasks[2].out != tasks[0].out
    ensures var o := RunTasks(fs, tasks, process);
            && o.processed == 1 && o.error == Some(ReadFailed(tasks[1].src))
            && FileAt(o.fs, tasks[0].out) == Expected(fs, tasks[0], process)
            && FileAt(o.fs, tasks[2].out) == FileAt(fs, tasks[2].out)
  {
    var next := ProcessFile(fs, tasks[0], process).value;
    assert tasks[1..][0] == tasks[1];
    assert ProcessFile(next, tasks[1], process) == Err(ReadFailed(tasks[1].src));
  }

  /** A source directory holding `in.js` with "foo\nbar", processed line by line with
      an upper-casing modifier, yields `in.js` in the destination directory holding
      "FOO\nBAR". */
  lemma EndToEndExample()
    ensures var fs := FileSystem(map["src" := ["in.js"]], map[Path("src", "in.js") := "foo\nbar"], {});
            var o := Files(fs, "src", "out", [".js"], [], FileTransform([Call(Line, Shout)]));
            o.error.None? && FileAt(o.fs, Path("out", "in.js")) == Some("FOO\nBAR")
  {
    var fs := FileSystem(map["src" := ["in.js"]], map[Path("src", "in.js") := "foo\nbar"], {});
    ExampleSelect();
    assert ReadDir(fs, "src") == Ok(["in.js"]);
    ExampleRun(MakeDirIfAbsent(fs, "out").value);
  }

  lemma ExampleSelect()
    ensures Select("src", "out", ["in.js"], [".js"], []) == [TaskFor("src", "out", "in.js")]
  {
    assert Selected("in.js", [".js"], []) by {
      assert EndsWith("in.js", ".js");
    }
    SelectOne("src", "out", "in.js", [".js"], []);
  }

  lemma ExampleRun(ready: FileSystem)
    requires ready == FileSystem(map["src" := ["in.js"], "out" := []], map[Path("src", "in.js") := "foo\nbar"], {})
    ensures var o := RunTasks(ready, [TaskFor("src", "out", "in.js")], FileTransform([Call(Line, Shout)]));
            o.error.None? && FileAt(o.fs, Path("out", "in.js")) == Some("FOO\nBAR")
  {
    var task := TaskFor("src", "out", "in.js");
    var process := FileTransform([Call(Line, Shout)]);
    ShoutExample();
    assert ReadText(ready, task.src) == Ok("foo\nbar");
    assert process("foo\nbar") == Ok("FOO\nBAR");
    assert ProcessFile(ready, task, process).Ok?;
    assert [task][1..] == [];
  }
}

=== FILE: common.dfy ===
/** Vocabulary shared by the whole model: optional values, the exceptions the
    library can meet, and results that carry either a value or such an exception. */
module Common {

  type Text = seq<char>

  datatype Option<+T> = None | Some(value: T)

  /** A file-system path, kept as the pair given to `path.join(dir, name)`.
      The join itself (separators, normalisation) is left opaque. */
  datatype Path = Path(dir: Text, name: Text)

  /** The exceptions that can reach the catch-all of `files`. */
  datatype Failure =
    | ListFailed(dir: Text)        // readdirSync threw
    | MakeDirFailed(dir: Text)     // mkdirSync threw
    | ReadFailed(path: Path)       // readFileSync threw
    | WriteFailed(path: Path)      // writeFileSync threw
    | Threw(message: Text)         // a caller-supplied modifier threw

  datatype Result<+T> = Ok(value: T) | Err(failure: Failure)
}

=== FILE: lines.dfy ===
/** The newline pattern `/\r?\n/` together with JavaScript's `String.prototype.split`
    over it, and `Array.prototype.join`, which together decide how text is cut into
    lines and how buffered output is glued back into one file. */
module Lines {
  import opened Common

  /** Number of occurrences of `c` in `s`. */
  function Count(s: Text, c: char): nat
  {
    if |s| == 0 then 0 else (if s[0] == c then 1 else 0) + Count(s[1..], c)
  }

  /** Length of the match of `/\r?\n/` starting exactly at `q`, or 0 for no match:
      a line feed, or a carriage return directly followed by one. */
  function MatchAt(s: Text, q: nat): nat
    requires q < |s|
  {
    if s[q] == '\n' then 1
    else if s[q] == '\r' && q + 1 < |s| && s[q + 1] == '\n' then 2
    else 0
  }

  /** Puts `c` in front of the first of `pieces`. */
  function Prepend(c: char, pieces: seq<Text>): seq<Text>
    requires |pieces| >= 1
  {
    [[c] + pieces[0]] + pieces[1..]
  }

  /** `s.split(/\r?\n/)`: where the pattern matches at the start of the text, the
      current piece ends and the match is dropped; otherwise the first character
      belongs to the current piece. So a piece ends at each line feed, losing one
      carriage return right before it, and a carriage return elsewhere stays. The
      result is never empty, and a trailing empty piece is kept. */
  function Split(s: Text): (pieces: seq<Text>)
    ensures |pieces| >= 1
    decreases |s|
  {
    if |s| == 0 then [[]]
    else if MatchAt(s, 0) > 0 then [[]] + Split(s[MatchAt(s, 0)..])
    else Prepend(s[0], Split(s[1..]))
  }

  /** `pieces.join(sep)`: the pieces with `sep` between neighbours, `""` for none. */
  function Join(pieces: seq<Text>, sep: Text): (r: Text)
    ensures |pieces| > 0 ==> pieces[0] <= r
    ensures |pieces| == 0 ==> r == []
  {
    if |pieces| == 0 then []
    else if |pieces| == 1 then pieces[0]
    else pieces[0] + sep + Join(pieces[1..], sep)
  }

  /** The joined text ends with the last piece. */
  lemma {:induction false} JoinEndsWithLast(pieces: seq<Text>, sep: Text)
    requires |pieces| > 0
    ensures var r := Join(pieces, sep); var last := pieces[|pieces| - 1];
            |last| <= |r| && r[|r| - |last|..] == last
    decreases |pieces|
  {
    if |pieces| > 1 {
      JoinEndsWithLast(pieces[1..], sep);
      var rest := Join(pieces[1..], sep);
      assert Join(pieces, sep) == (pieces[0] + sep) + rest;
    }
  }

  /** `s` with every `"\r\n"` replaced by `"\n"`, reading left to right: an
      independent description of what splitting and re-joining does to text. */
  function CollapseCRLF(s: Text): Text
  {
    if |s| == 0 then []
    else if |s| >= 2 && s[0] == '\r' && s[1] == '\n' then "\n" + CollapseCRLF(s[2..])
    else [s[0]] + CollapseCRLF(s[1..])
  }

  predicate EndsInCR(t: Text)
  {
    |t| > 0 && t[|t| - 1] == '\r'
  }

  /** Splitting yields one more piece than there are line feeds, so the empty text
      yields one piece (what a final line feed yields is `SplitTrailingEmpty`). */
  lemma {:induction false} SplitCount(s: Text)
    ensures |Split(s)| == Count(s, '\n') + 1
    decreases |s|
  {
    if |s| > 0 {
      var n := MatchAt(s, 0);
      if n == 0 {
        SplitCount(s[1..]);
      } else {
        SplitCount(s[n..]);
        if n == 2 {
          assert s[1..][1..] == s[2..];
          assert Count(s[1..], '\n') == 1 + Count(s[2..], '\n');
        }
      }
    }
  }

  /** A text ending in a line feed splits into at least two pieces, the last of them
      empty. */
  lemma {:induction false} SplitTrailingEmpty(s: Text)
    requires |s| > 0 && s[|s| - 1] == '\n'
    ensures |Split(s)| >= 2 && Split(s)[|Split(s)| - 1] == []
    decreases |s|
  {
    var n := MatchAt(s, 0);
    if n > 0 {
      if n < |s| {
        SplitTrailingEmpty(s[n..]);
      } else {
        assert s[n..] == [];
      }
    } else {
      SplitTrailingEmpty(s[1..]);
    }
  }

  /** No piece of a split holds a line feed. */
  lemma {:induction false} SplitPiecesHaveNoNewline(s: Text)
    ensures forall k :: 0 <= k < |Split(s)| ==> '\n' !in Split(s)[k]
    decreases |s|
  {
    if |s| > 0 {
      var n := MatchAt(s, 0);
      if n > 0 {
        SplitPiecesHaveNoNewline(s[n..]);
        assert forall k :: 1 <= k < |Split(s)| ==> Split(s)[k] == Split(s[n..])[k - 1];
      } else {
        var rest := Split(s[1..]);
        SplitPiecesHaveNoNewline(s[1..]);
        assert forall k :: 1 <= k < |Split(s)| ==> Split(s)[k] == rest[k];
        assert Split(s)[0] == [s[0]] + rest[0];
      }
    }
  }

  /** Text without a line feed is one piece. */
  lemma {:induction false} SplitNoNewline(s: Text)
    requires '\n' !in s
    ensures Split(s) == [s]
    decreases |s|
  {
    if |s| > 0 {
      assert s[0] != '\n' && (|s| >= 2 ==> s[1] != '\n');
      assert '\n' !in s[1..] by {
        assert forall x :: x in s[1..] ==> x in s;
      }
      SplitNoNewline(s[1..]);
      assert [s[0]] + s[1..] == s;
    }
  }

  /** A text splits into itself alone exactly when it holds no line feed. */
  lemma SplitSingle(s: Text)
    ensures Split(s) == [s] <==> '\n' !in s
  {
    SplitPiecesHaveNoNewline(s);
    assert '\n' !in Split(s)[0];
    if '\n' !in s {
      SplitNoNewline(s);
    }
  }

  lemma JoinPrepend(c: char, pieces: seq<Text>, sep: Text)
    requires |pieces| >= 1
    ensures Join(Prepend(c, pieces), sep) == [c] + Join(pieces, sep)
  {
    var p := Prepend(c, pieces);
    if |pieces| > 1 {
      assert p[1..] == pieces[1..];
    }
  }

  /** Splitting and re-joining with `"\n"` replaces every `"\r\n"` by `"\n"` and
      changes nothing else. */
  lemma {:induction false} JoinSplit(s: Text)
    ensures Join(Split(s), "\n") == CollapseCRLF(s)
    decreases |s|
  {
    if |s| > 0 {
      var n := MatchAt(s, 0);
      if n > 0 {
        var rest := Split(s[n..]);
        JoinSplit(s[n..]);
        assert ([[]] + rest)[1..] == rest;
        assert Join([[]] + rest, "\n") == "\n" + Join(rest, "\n");
      } else {
        JoinSplit(s[1..]);
        JoinPrepend(s[0], Split(s[1..]), "\n");
      }
    }
  }

  /** Text without a carriage return is unchanged by collapsing `"\r\n"`. */
  lemma {:induction false} CollapseNoCR(s: Text)
    requires '\r' !in s
    ensures CollapseCRLF(s) == s
    decreases |s|
  {
    if |s| > 0 {
      assert '\r' !in s[1..] by { assert forall x :: x in s[1..] ==> x in s; }
      CollapseNoCR(s[1..]);
      assert [s[0]] + s[1..] == s;
    }
  }

  /** For text without carriage returns, splitting and re-joining is the identity. */
  lemma JoinSplitIdentity(s: Text)
    requires '\r' !in s
    ensures Join(Split(s), "\n") == s
  {
    JoinSplit(s);
    CollapseNoCR(s);
  }

  /** A line, a line feed, then more text: the line is the first piece, provided it
      holds no line feed and does not end in a carriage return. */
  lemma {:induction false} SplitLine(line: Text, rest: Text)
    requires '\n' !in line && !EndsInCR(line)
    ensures Split(line + "\n" + rest) == [line] + Split(rest)
    decreases |line|
  {
    var s := line + "\n" + rest;
    if |line| == 0 {
      assert s == "\n" + rest;
      assert s[1..] == rest;
    } else {
      var tail := line[1..];
      assert '\n' !in tail by { assert forall x :: x in tail ==> x in line; }
      assert !EndsInCR(tail) by {
        if |tail| > 0 { assert tail[|tail| - 1] == line[|line| - 1]; }
      }
      assert MatchAt(s, 0) == 0 by {
        assert s[0] == line[0];
        if |line| >= 2 { assert s[1] == line[1]; }
      }
      assert s[1..] == tail + "\n" + rest;
      SplitLine(tail, rest);
      assert [line[0]] + tail == line;
    }
  }

  /** Joining lines with `"\n"` and splitting again gives the lines back, provided
      no line holds a line feed and no line but the last ends in a carriage return
      (that one would be taken for part of a `"\r\n"`). */
  lemma {:induction false} SplitJoin(lines: seq<Text>)
    requires |lines| >= 1
    requires forall k :: 0 <= k < |lines| ==> '\n' !in lines[k]
    requires forall k :: 0 <= k < |lines| - 1 ==> !EndsInCR(lines[k])
    ensures Split(Join(lines, "\n")) == lines
    decreases |lines|
  {
    if |lines| == 1 {
      SplitNoNewline(lines[0]);
    } else {
      var rest := lines[1..];
      SplitLine(lines[0], Join(rest, "\n"));
      SplitJoin(rest);
      assert lines == [lines[0]] + rest;
    }
  }

  /** The splitting loop of ECMAScript's `RegExp.prototype[@@split]` (section 22.2.6.14
      of ECMA-262) for the pattern `/\r?\n/`, which `String.prototype.split` delegates
      to: the current piece starts at `p`; the pattern is tried at every position `q`;
      on a match the piece `s[p..q]` is closed and scanning resumes after the match;
      at the end the rest of the text is the last piece. */
  function Scan(s: Text, p: nat, q: nat): seq<Text>
    requires p <= q <= |s|
    decreases |s| - q
  {
    if q == |s| then [s[p..]]
    else if MatchAt(s, q) == 0 then Scan(s, p, q + 1)
    else [s[p..q]] + Scan(s, q + MatchAt(s, q), q + MatchAt(s, q))
  }

  lemma MatchAtShift(s: Text, p: nat)
    requires p < |s|
    ensures MatchAt(s[p..], 0) == MatchAt(s, p)
  {
  }

  /** The end of the scan: no match from `p` on leaves `s[p..]` as the last piece. */
  lemma {:induction false} SplitTail(s: Text, p: nat)
    requires p <= |s|
    requires forall j :: p <= j < |s| ==> MatchAt(s, j) == 0
    ensures Split(s[p..]) == [s[p..]]
    decreases |s| - p
  {
    if p < |s| {
      MatchAtShift(s, p);
      assert s[p..][1..] == s[p + 1..];
      SplitTail(s, p + 1);
      assert [s[p]] + s[p + 1..] == s[p..];
    }
  }

  /** One step of the scan: a match at `q` with none in `p..q` closes the piece `s[p..q]`. */
  lemma {:induction false} SplitStep(s: Text, p: nat, q: nat)
    requires p <= q < |s| && MatchAt(s, q) > 0
    requires forall j :: p <= j < q ==> MatchAt(s, j) == 0
    ensures Split(s[p..]) == [s[p..q]] + Split(s[q + MatchAt(s, q)..])
    decreases q - p
  {
    MatchAtShift(s, p);
    if p == q {
      assert s[p..][MatchAt(s, q)..] == s[q + MatchAt(s, q)..];
      assert s[p..q] == [];
    } else {
      assert s[p..][1..] == s[p + 1..];
      SplitStep(s, p + 1, q);
      assert [s[p]] + s[p + 1..q] == s[p..q];
    }
  }

  /** The scanning algorithm computes exactly the pieces `Split` describes: from any
      point of the scan with no match between `p` and `q`, the remaining pieces are
      the split of `s[p..]`. */
  lemma {:induction false} ScanIsSplit(s: Text, p: nat, q: nat)
    requires p <= q <= |s|
    requires forall j :: p <= j < q ==> MatchAt(s, j) == 0
    ensures Scan(s, p, q) == Split(s[p..])
    decreases |s| - q
  {
    if q == |s| {
      SplitTail(s, p);
    } else if MatchAt(s, q) == 0 {
      ScanIsSplit(s, p, q + 1);
    } else {
      var n := MatchAt(s, q);
      SplitStep(s, p, q);
      ScanIsSplit(s, q + n, q + n);
    }
  }

  /** `s.split(/\r?\n/)` as the engine computes it agrees with `Split`. */
  lemma SplitByPattern(s: Text)
    ensures Scan(s, 0, 0) == Split(s)
  {
    ScanIsSplit(s, 0, 0);
    assert s[0..] == s;
  }

  /** Unix line ends, and a trailing empty line kept after a final line feed. */
  lemma SplitUnixExamples()
    ensures Split("a\nb\nc") == ["a", "b", "c"]
    ensures Split("a\nb\n") == ["a", "b", ""]
    ensures Split("") == [""]
  {
    SplitLine("a", "b\nc");
    SplitLine("b", "c");
    SplitNoNewline("c");
    SplitLine("a", "b\n");
    SplitLine("b", "");
    assert "a" + "\n" + "b\nc" == "a\nb\nc";
    assert "b" + "\n" + "c" == "b\nc";
    assert "a" + "\n" + "b\n" == "a\nb\n";
    assert "b" + "\n" + "" == "b\n";
  }

  /** Windows line ends lose their carriage return; other carriage returns stay. */
  lemma SplitCarriageReturnExamples()
    ensures Split("a\r\nb") == ["a", "b"]
    ensures Split("a\rb") == ["a\rb"]
    ensures Split("a\r\r\nb") == ["a\r", "b"]
  {
    SplitStep("a\r\nb", 0, 1);
    assert "a\r\nb"[0..] == "a\r\nb" && "a\r\nb"[3..] == "b" && "a\r\nb"[0..1] == "a";
    SplitNoNewline("b");
    SplitNoNewline("a\rb");
    SplitStep("a\r\r\nb", 0, 2);
    assert "a\r\r\nb"[0..] == "a\r\r\nb" && "a\r\r\nb"[4..] == "b" && "a\r\r\nb"[0..2] == "a\r";
  }
}

=== FILE: processing.dfy ===
/** The line/whole modes and the outputter: how a modifier is invoked on text and how
    what it outputs is collected, on standard input (printed at once) and for a file
    (buffered, then joined with "\n" into the file's new content). */
module Processing {
  import opened Common
  import opened Lines

  /** What one invocation of a modifier does: the strings it passes to the outputter,
      in order, and the exception it ends with, if any. Modifiers are modelled as pure
      functions of the data they are given. */
  datatype Emission = Emission(output: seq<Text>, thrown: Option<Text>)

  type Modifier = Text -> Emission

  /** The two shapes of a call: `line(modifier)` and `whole(modifier)`. */
  datatype Mode = Line | Whole

  datatype Call = Call(mode: Mode, modifier: Modifier)

  /** The data a call hands to its modifier, one invocation per element, in order:
      every piece of the split text in line mode, the untouched text in whole mode. */
  function Inputs(mode: Mode, text: Text): (data: seq<Text>)
    ensures mode == Line ==> |data| == Count(text, '\n') + 1
    ensures mode == Whole ==> data == [text]
  {
    match mode
    case Line =>
      SplitCount(text);
      Split(text)
    case Whole => [text]
  }

  /** What the outputter has collected, and the exception that stopped the run. */
  datatype Run = Run(buffer: seq<Text>, thrown: Option<Text>)

  /** `data.forEach(d => modifier(d, outputter))`: each invocation's output is appended
      in invocation order; the first exception stops the loop. */
  function Feed(m: Modifier, data: seq<Text>, buffer: seq<Text>): (r: Run)
    ensures buffer <= r.buffer
    ensures r.thrown.None? <==> forall i :: 0 <= i < |data| ==> m(data[i]).thrown.None?
    decreases |data|
  {
    if |data| == 0 then Run(buffer, None)
    else
      var e := m(data[0]);
      if e.thrown.Some? then Run(buffer + e.output, e.thrown)
      else Feed(m, data[1..], buffer + e.output)
  }

  /** Reference: everything the modifier outputs over `data`, invocation by invocation. */
  function Emitted(m: Modifier, data: seq<Text>): seq<Text>
  {
    if |data| == 0 then [] else m(data[0]).output + Emitted(m, data[1..])
  }

  /** With no exception, the outputter ends up holding exactly what the modifier
      output, invocation after invocation, after what it already held. */
  lemma {:induction false} FeedEmitsAll(m: Modifier, data: seq<Text>, buffer: seq<Text>)
    requires forall i :: 0 <= i < |data| ==> m(data[i]).thrown.None?
    ensures Feed(m, data, buffer) == Run(buffer + Emitted(m, data), None)
    decreases |data|
  {
    if |data| > 0 {
      assert m(data[0]).thrown.None?;
      FeedEmitsAll(m, data[1..], buffer + m(data[0]).output);
    }
  }

  /** When the `k`-th invocation is the first to throw, the outputter holds what the
      invocations before it output plus what the `k`-th output before throwing; no
      later element is handed to the modifier. */
  lemma {:induction false} FeedStopsAtFirstThrow(m: Modifier, data: seq<Text>, buffer: seq<Text>, k: nat)
    requires k < |data| && m(data[k]).thrown.Some?
    requires forall i :: 0 <= i < k ==> m(data[i]).thrown.None?
    ensures Feed(m, data, buffer)
         == Run(buffer + Emitted(m, data[..k]) + m(data[k]).output, m(data[k]).thrown)
    decreases k
  {
    if k == 0 {
      assert data[..0] == [];
    } else {
      assert m(data[0]).thrown.None?;
      assert data[1..][..k - 1] == data[..k][1..];
      FeedStopsAtFirstThrow(m, data[1..], buffer + m(data[0]).output, k - 1);
    }
  }

  /** A modifier that outputs the data it is given, making invocations visible. */
  function Echo(d: Text): Emission
  {
    Emission([d], None)
  }

  lemma {:induction false} EchoEmitsInputs(data: seq<Text>)
    ensures Emitted(Echo, data) == data
    decreases |data|
  {
    if |data| > 0 {
      EchoEmitsInputs(data[1..]);
    }
  }

  /** Line mode invokes the modifier once per piece of the split text, in piece order;
      whole mode invokes it exactly once, with the text untouched. */
  lemma ModeInvocations(text: Text)
    ensures Feed(Echo, Inputs(Line, text), []) == Run(Split(text), None)
    ensures |Inputs(Line, text)| == Count(text, '\n') + 1
    ensures Feed(Echo, Inputs(Whole, text), []) == Run([text], None)
  {
    FeedEmitsAll(Echo, Split(text), []);
    EchoEmitsInputs(Split(text));
    SplitCount(text);
  }

  /** The call's modifier throws on none of the data it is handed. */
  predicate CallSucceeds(text: Text, call: Call)
  {
    forall i :: 0 <= i < |Inputs(call.mode, text)| ==> call.modifier(Inputs(call.mode, text)[i]).thrown.None?
  }

  /** `processor(lineFunc, wholeFunc)` for one file: the processor's calls of `lineFunc`
      and `wholeFunc`, in order and in any mix, all appending to the one buffer of
      the file; an exception ends the processor. */
  function RunCalls(text: Text, calls: seq<Call>, buffer: seq<Text>): (r: Run)
    ensures buffer <= r.buffer
    ensures r.thrown.None? <==> forall c :: 0 <= c < |calls| ==> CallSucceeds(text, calls[c])
    decreases |calls|
  {
    if |calls| == 0 then Run(buffer, None)
    else
      var first := Feed(calls[0].modifier, Inputs(calls[0].mode, text), buffer);
      if first.thrown.Some? then first
      else RunCalls(text, calls[1..], first.buffer)
  }

  /** Reference: all output of the calls, call after call. */
  function AllEmitted(text: Text, calls: seq<Call>): seq<Text>
  {
    if |calls| == 0 then []
    else Emitted(calls[0].modifier, Inputs(calls[0].mode, text)) + AllEmitted(text, calls[1..])
  }

  /** With no exception the buffer receives every call's output, in call order. */
  lemma {:induction false} RunCallsEmitsAll(text: Text, calls: seq<Call>, buffer: seq<Text>)
    requires forall c :: 0 <= c < |calls| ==> CallSucceeds(text, calls[c])
    ensures RunCalls(text, calls, buffer) == Run(buffer + AllEmitted(text, calls), None)
    decreases |calls|
  {
    if |calls| > 0 {
      var c := calls[0];
      assert CallSucceeds(text, c);
      FeedEmitsAll(c.modifier, Inputs(c.mode, text), buffer);
      RunCallsEmitsAll(text, calls[1..], buffer + Emitted(c.modifier, Inputs(c.mode, text)));
    }
  }

  lemma {:induction false} FeedPrefix(m: Modifier, data: seq<Text>, buffer: seq<Text>)
    ensures Feed(m, data, buffer) == Run(buffer + Feed(m, data, []).buffer, Feed(m, data, []).thrown)
    decreases |data|
  {
    if |data| > 0 {
      var e := m(data[0]);
      if e.thrown.None? {
        FeedPrefix(m, data[1..], buffer + e.output);
        FeedPrefix(m, data[1..], e.output);
        assert [] + e.output == e.output;
        var tail := Feed(m, data[1..], []);
        assert (buffer + e.output) + tail.buffer == buffer + (e.output + tail.buffer);
      } else {
        assert [] + e.output == e.output;
      }
    }
  }

  /** What was in the buffer before only stays in front: a run started on an empty
      buffer produces the same output and outcome, so giving every file a fresh
      buffer keeps one file's output out of another's. */
  lemma {:induction false} BufferIsolation(text: Text, calls: seq<Call>, buffer: seq<Text>)
    ensures RunCalls(text, calls, buffer)
         == Run(buffer + RunCalls(text, calls, []).buffer, RunCalls(text, calls, []).thrown)
    decreases |calls|
  {
    if |calls| > 0 {
      var c := calls[0];
      var data := Inputs(c.mode, text);
      FeedPrefix(c.modifier, data, buffer);
      var first := Feed(c.modifier, data, []);
      if first.thrown.None? {
        BufferIsolation(text, calls[1..], buffer + first.buffer);
        BufferIsolation(text, calls[1..], first.buffer);
      }
    }
  }

  /** The pure part of `processFile`: run the processor with a fresh, empty buffer; if
      nothing throws, the new file content is the buffer joined with "\n". */
  function ProcessText(text: Text, calls: seq<Call>): (r: Result<Text>)
    ensures r.Ok? <==> forall c :: 0 <= c < |calls| ==> CallSucceeds(text, calls[c])
    ensures r.Err? ==> r.failure.Threw?
  {
    var run := RunCalls(text, calls, []);
    match run.thrown
    case Some(message) => Err(Threw(message))
    case None => Ok(Join(run.buffer, "\n"))
  }

  /** When call `c` is the first whose modifier throws, the run is the calls before it
      completing in order, then call `c` fed on what they output; no later call runs. */
  lemma RunCallsStopsAtFirstThrow(text: Text, calls: seq<Call>, buffer: seq<Text>, c: nat)
    requires c < |calls| && !CallSucceeds(text, calls[c])
    requires forall j :: 0 <= j < c ==> CallSucceeds(text, calls[j])
    ensures RunCalls(text, calls, buffer)
         == Feed(calls[c].modifier, Inputs(calls[c].mode, text), buffer + AllEmitted(text, calls[..c]))
  {
    RunCallsPrefix(text, calls, buffer, c);
    RunCallsFirstFails(text, calls[c..], buffer + AllEmitted(text, calls[..c]));
  }

  /** Calls that all succeed hand the run over to the remaining calls, with their
      output appended to the buffer. */
  lemma {:induction false} RunCallsPrefix(text: Text, calls: seq<Call>, buffer: seq<Text>, c: nat)
    requires c <= |calls|
    requires forall j :: 0 <= j < c ==> CallSucceeds(text, calls[j])
    ensures RunCalls(text, calls, buffer) == RunCalls(text, calls[c..], buffer + AllEmitted(text, calls[..c]))
    decreases c
  {
    if c == 0 {
      assert calls[0..] == calls && calls[..0] == [];
      assert buffer + [] == buffer;
    } else {
      var out := Emitted(calls[0].modifier, Inputs(calls[0].mode, text));
      SucceedingTail(text, calls, c);
      RunCallsPrefix(text, calls[1..], buffer + out, c - 1);
      PrefixStep(text, calls, buffer, c);
    }
  }

  lemma SucceedingTail(text: Text, calls: seq<Call>, c: nat)
    requires 0 < c <= |calls|
    requires forall j :: 0 <= j < c ==> CallSucceeds(text, calls[j])
    ensures forall j :: 0 <= j < c - 1 ==> CallSucceeds(text, calls[1..][j])
  {
    assert forall j :: 0 <= j < c - 1 ==> calls[1..][j] == calls[j + 1];
  }

  /** The inductive step of `RunCallsPrefix`. */
  lemma PrefixStep(text: Text, calls: seq<Call>, buffer: seq<Text>, c: nat)
    requires 0 < c <= |calls| && CallSucceeds(text, calls[0])
    requires var out := Emitted(calls[0].modifier, Inputs(calls[0].mode, text));
             RunCalls(text, calls[1..], buffer + out)
             == RunCalls(text, calls[1..][c - 1..], (buffer + out) + AllEmitted(text, calls[1..][..c - 1]))
    ensures RunCalls(text, calls, buffer) == RunCalls(text, calls[c..], buffer + AllEmitted(text, calls[..c]))
  {
    var out := Emitted(calls[0].modifier, Inputs(calls[0].mode, text));
    var tail := AllEmitted(text, calls[1..][..c - 1]);
    RunCallsStep(text, calls, buffer);
    assert calls[1..][c - 1..] == calls[c..];
    AllEmittedPeel(text, calls, c);
    assert buffer + (out + tail) == (buffer + out) + tail;
  }

  /** A first call that fails is the whole run. */
  lemma RunCallsFirstFails(text: Text, calls: seq<Call>, buffer: seq<Text>)
    requires |calls| > 0 && !CallSucceeds(text, calls[0])
    ensures RunCalls(text, calls, buffer) == Feed(calls[0].modifier, Inputs(calls[0].mode, text), buffer)
  {
  }

  /** A first call that succeeds appends its output and hands over to the rest. */
  lemma RunCallsStep(text: Text, calls: seq<Call>, buffer: seq<Text>)
    requires |calls| > 0 && CallSucceeds(text, calls[0])
    ensures RunCalls(text, calls, buffer)
         == RunCalls(text, calls[1..], buffer + Emitted(calls[0].modifier, Inputs(calls[0].mode, text)))
  {
    FeedEmitsAll(calls[0].modifier, Inputs(calls[0].mode, text), buffer);
  }

  lemma AllEmittedPeel(text: Text, calls: seq<Call>, c: nat)
    requires 0 < c <= |calls|
    ensures AllEmitted(text, calls[..c])
         == Emitted(calls[0].modifier, Inputs(calls[0].mode, text)) + AllEmitted(text, calls[1..][..c - 1])
  {
    assert calls[..c][0] == calls[0];
    assert calls[..c][1..] == calls[1..][..c - 1];
  }

  /** A failed file carries the exception of the first throwing invocation: the `i`-th
      datum of call `c`, where every earlier call and every earlier datum of call `c`
      went through. That exception is what the catch-all of `files` logs. */
  lemma ProcessTextFirstThrow(text: Text, calls: seq<Call>, c: nat, i: nat)
    requires c < |calls| && forall j :: 0 <= j < c ==> CallSucceeds(text, calls[j])
    requires var data := Inputs(calls[c].mode, text);
             && i < |data| && calls[c].modifier(data[i]).thrown.Some?
             && forall k :: 0 <= k < i ==> calls[c].modifier(data[k]).thrown.None?
    ensures ProcessText(text, calls)
         == Err(Threw(calls[c].modifier(Inputs(calls[c].mode, text)[i]).thrown.value))
  {
    var data := Inputs(calls[c].mode, text);
    assert !CallSucceeds(text, calls[c]);
    RunCallsStopsAtFirstThrow(text, calls, [], c);
    FeedStopsAtFirstThrow(calls[c].modifier, data, [] + AllEmitted(text, calls[..c]), i);
  }

  /** The written content is the output of all calls, in call order, joined with "\n";
      it is empty when nothing was output, and when every output string is a line
      (no line feed, no final carriage return) splitting it gives those strings back. */
  lemma ProcessTextContent(text: Text, calls: seq<Call>)
    requires forall c :: 0 <= c < |calls| ==> CallSucceeds(text, calls[c])
    ensures ProcessText(text, calls) == Ok(Join(AllEmitted(text, calls), "\n"))
    ensures AllEmitted(text, calls) == [] ==> ProcessText(text, calls) == Ok([])
    ensures var out := AllEmitted(text, calls);
            |out| >= 1 && (forall k :: 0 <= k < |out| ==> '\n' !in out[k] && !EndsInCR(out[k]))
            ==> Split(ProcessText(text, calls).value) == out
  {
    RunCallsEmitsAll(text, calls, []);
    var out := AllEmitted(text, calls);
    assert [] + out == out;
    if |out| >= 1 && (forall k :: 0 <= k < |out| ==> '\n' !in out[k] && !EndsInCR(out[k])) {
      SplitJoin(out);
    }
  }

  /** The `data` handler that `line` and `whole` attach to standard input, for one
      chunk: every string the modifier outputs is printed at once, so the console keeps
      what was printed before an exception, which then escapes the handler. */
  function OnChunk(call: Call, chunk: Text): (console: Run)
    ensures console.thrown.None? <==> CallSucceeds(chunk, call)
    ensures console.thrown.None? ==> console.buffer == Emitted(call.modifier, Inputs(call.mode, chunk))
  {
    var r := Feed(call.modifier, Inputs(call.mode, chunk), []);
    if r.thrown.None? then FeedEmitsAll(call.modifier, Inputs(call.mode, chunk), []); r else r
  }

  function UpperChar(c: char): char
  {
    if 'a' <= c <= 'z' then (c as int - 32) as char else c
  }

  function Upper(d: Text): Text
  {
    if |d| == 0 then [] else [UpperChar(d[0])] + Upper(d[1..])
  }

  /** A modifier that outputs its line upper-cased (ASCII letters only). */
  function Shout(d: Text): Emission
  {
    Emission([Upper(d)], None)
  }

  lemma SplitFooBar()
    ensures Split("foo\nbar") == ["foo", "bar"]
  {
    SplitLine("foo", "bar");
    assert "foo" + "\n" + "bar" == "foo\nbar";
    SplitNoNewline("bar");
  }

  lemma ShoutFooBar()
    ensures Emitted(Shout, ["foo", "bar"]) == ["FOO", "BAR"]
  {
    assert Upper("foo") == "FOO" by {
      assert "foo"[1..] == "oo" && "oo"[1..] == "o" && "o"[1..] == [];
    }
    assert Upper("bar") == "BAR" by {
      assert "bar"[1..] == "ar" && "ar"[1..] == "r" && "r"[1..] == [];
    }
    assert ["foo", "bar"][1..] == ["bar"];
    assert ["bar"][1..] == [];
  }

  lemma ShoutFooBarEmitted()
    ensures AllEmitted("foo\nbar", [Call(Line, Shout)]) == ["FOO", "BAR"]
  {
    var calls := [Call(Line, Shout)];
    SplitFooBar();
    ShoutFooBar();
    assert calls[1..] == [];
    assert ["FOO", "BAR"] + [] == ["FOO", "BAR"];
  }

  lemma ShoutSucceeds(text: Text)
    ensures CallSucceeds(text, Call(Line, Shout))
  {
  }

  /** Upper-casing each line of "foo\nbar" writes "FOO\nBAR". */
  lemma ShoutExample()
    ensures ProcessText("foo\nbar", [Call(Line, Shout)]) == Ok("FOO\nBAR")
  {
    var calls := [Call(Line, Shout)];
    ShoutSucceeds("foo\nbar");
    ProcessTextContent("foo\nbar", calls);
    ShoutFooBarEmitted();
    JoinFooBar();
  }

  lemma JoinFooBar()
    ensures Join(["FOO", "BAR"], "\n") == "FOO\nBAR"
  {
    assert ["FOO", "BAR"][1..] == ["BAR"];
  }
}

=== FILE: selection.dfy ===
/** Which directory entries `files` processes: `fileNameMatchesExt` and the loop
    that builds the list of (source, destination) pairs. */
module Selection {
  import opened Common

  /** `name.endsWith(ext)`: `ext` is a suffix of `name` (the empty string always is). */
  function EndsWith(name: Text, ext: Text): (b: bool)
    ensures ext == [] ==> b
    ensures b ==> |ext| <= |name|
    ensures b && |ext| > 0 ==> name[|name| - 1] == ext[|ext| - 1]
  {
    |ext| <= |name| && name[|name| - |ext|..] == ext
  }

  /** Position by position: the last `|ext|` characters of `name` are those of `ext`. */
  lemma EndsWithIndexwise(name: Text, ext: Text)
    ensures EndsWith(name, ext)
        <==> |ext| <= |name| && forall i :: 0 <= i < |ext| ==> name[|name| - |ext| + i] == ext[i]
  {
    if |ext| <= |name| && forall i :: 0 <= i < |ext| ==> name[|name| - |ext| + i] == ext[i] {
      assert name[|name| - |ext|..] == ext;
    }
  }

  /** `exts.find(ext => name.endsWith(ext))`: the first element of `exts` that is a
      suffix of `name`, or `undefined` (here `None`) when there is none. */
  function FindSuffix(name: Text, exts: seq<Text>): (r: Option<Text>)
    ensures r.None? <==> forall k :: 0 <= k < |exts| ==> !EndsWith(name, exts[k])
    ensures r.Some? ==> exists k :: 0 <= k < |exts| && exts[k] == r.value && EndsWith(name, exts[k])
                                    && forall j :: 0 <= j < k ==> !EndsWith(name, exts[j])
  {
    if |exts| == 0 then None
    else if EndsWith(name, exts[0]) then Some(exts[0])
    else
      var r := FindSuffix(name, exts[1..]);
      assert r.Some? ==> exists k :: 1 <= k < |exts| && exts[k] == r.value && EndsWith(name, exts[k])
                                    && forall j :: 0 <= j < k ==> !EndsWith(name, exts[j]) by {
        if r.Some? {
          var k :| 0 <= k < |exts[1..]| && exts[1..][k] == r.value && EndsWith(name, exts[1..][k])
                    && forall j :: 0 <= j < k ==> !EndsWith(name, exts[1..][j]);
          assert exts[k + 1] == r.value;
        }
      }
      r
  }

  /** `fileNameMatchesExt` as written: `!!` turns the element `find` returned into a
      boolean, and the empty string is falsy in JavaScript. An empty extension that is
      the first suffix found therefore makes the whole test false. */
  function MatchesExtAsWritten(name: Text, exts: seq<Text>): (b: bool)
    ensures b <==> exists k :: 0 <= k < |exts| && EndsWith(name, exts[k]) && exts[k] != []
                                && forall j :: 0 <= j < k ==> !EndsWith(name, exts[j])
    ensures b ==> FileNameMatchesExt(name, exts)
  {
    match FindSuffix(name, exts)
    case None => false
    case Some(ext) => ext != []
  }

  /** `fileNameMatchesExt` as its comment describes it ("does the given filename have
      an extension in the given array?"): some element of `exts` is a suffix of `name`. */
  function FileNameMatchesExt(name: Text, exts: seq<Text>): (b: bool)
    ensures b <==> exists k :: 0 <= k < |exts| && EndsWith(name, exts[k])
    ensures |exts| == 0 ==> !b
  {
    FindSuffix(name, exts).Some?
  }

  /** The two agree whenever no extension is the empty string. */
  lemma MatchesExtAsWrittenAgrees(name: Text, exts: seq<Text>)
    requires forall k :: 0 <= k < |exts| ==> exts[k] != []
    ensures MatchesExtAsWritten(name, exts) == FileNameMatchesExt(name, exts)
  {
  }

  /** The discrepancy: `"a.js"` ends with `".js"`, yet with `""` listed first the
      as-written test says it matches nothing, and as a blacklist `[""]` excludes nothing. */
  lemma EmptyExtensionIsFalsy()
    ensures FileNameMatchesExt("a.js", ["", ".js"])
    ensures !MatchesExtAsWritten("a.js", ["", ".js"])
    ensures FileNameMatchesExt("a.js", [""]) && !MatchesExtAsWritten("a.js", [""])
  {
    assert EndsWith("a.js", "");
  }

  /** The selection rule: the name matches the whitelist and does not match the
      blacklist, so a blacklist match overrides a whitelist match. */
  function Selected(name: Text, whitelist: seq<Text>, blacklist: seq<Text>): (b: bool)
    ensures b ==> |whitelist| > 0
    ensures b ==> [] !in blacklist
  {
    FileNameMatchesExt(name, whitelist) && !FileNameMatchesExt(name, blacklist)
  }

  /** The corrected rule in full: some whitelist entry is a suffix of the name and no
      blacklist entry is. */
  lemma SelectedMeaning(name: Text, whitelist: seq<Text>, blacklist: seq<Text>)
    ensures Selected(name, whitelist, blacklist)
        <==> && (exists k :: 0 <= k < |whitelist| && EndsWith(name, whitelist[k]))
             && (forall k :: 0 <= k < |blacklist| ==> !EndsWith(name, blacklist[k]))
  {
  }

  /** The selection rule with the test as written, which `files` applies. */
  function SelectedAsWritten(name: Text, whitelist: seq<Text>, blacklist: seq<Text>): (b: bool)
    ensures b ==> |whitelist| > 0 && whitelist[0] != []
    ensures |blacklist| > 0 && blacklist[0] == [] ==> (b <==> MatchesExtAsWritten(name, whitelist))
  {
    MatchesExtAsWritten(name, whitelist) && !MatchesExtAsWritten(name, blacklist)
  }

  /** Without an empty-string extension in either list, the rule as written and the
      rule with the corrected test select the same names. */
  lemma SelectedAsWrittenAgrees(name: Text, whitelist: seq<Text>, blacklist: seq<Text>)
    requires forall k :: 0 <= k < |whitelist| ==> whitelist[k] != []
    requires forall k :: 0 <= k < |blacklist| ==> blacklist[k] != []
    ensures SelectedAsWritten(name, whitelist, blacklist) <==> Selected(name, whitelist, blacklist)
  {
    MatchesExtAsWrittenAgrees(name, whitelist);
    MatchesExtAsWrittenAgrees(name, blacklist);
  }

  /** With an empty-string extension the two rules part: as written, a whitelist `[""]`
      selects nothing and a blacklist `[""]` excludes nothing. */
  lemma SelectedEmptyExtension()
    ensures Selected("a.js", [""], []) && !SelectedAsWritten("a.js", [""], [])
    ensures !Selected("a.js", [".js"], [""]) && SelectedAsWritten("a.js", [".js"], [""])
  {
    EmptyExtensionIsFalsy();
    assert EndsWith("a.js", ".js");
  }

  /** In general: as written, a whitelist whose first entry is "" selects nothing, and
      a blacklist whose first entry is "" excludes nothing. */
  lemma SelectedEmptyFirst(name: Text, whitelist: seq<Text>, blacklist: seq<Text>)
    ensures !SelectedAsWritten(name, [""] + whitelist, blacklist)
    ensures SelectedAsWritten(name, whitelist, [""] + blacklist) == MatchesExtAsWritten(name, whitelist)
  {
    assert EndsWith(name, "");
  }

  /** One file to process: where it is read from and where its output goes. */
  datatype Task = Task(src: Path, out: Path)

  function TaskFor(srcDir: Text, outDir: Text, name: Text): Task
  {
    Task(Path(srcDir, name), Path(outDir, name))
  }

  /** The list `filesToProccess` built from the directory listing `names`: one pair
      per selected entry, in listing order, both paths built from the entry's name. */
  function Select(srcDir: Text, outDir: Text, names: seq<Text>,
                  whitelist: seq<Text>, blacklist: seq<Text>): (tasks: seq<Task>)
    ensures |tasks| <= |names|
    ensures forall t :: t in tasks ==>
              && t == TaskFor(srcDir, outDir, t.src.name)
              && t.src.name in names
              && Selected(t.src.name, whitelist, blacklist)
  {
    if |names| == 0 then []
    else
      var first := if Selected(names[0], whitelist, blacklist)
                   then [TaskFor(srcDir, outDir, names[0])] else [];
      first + Select(srcDir, outDir, names[1..], whitelist, blacklist)
  }

  /** Selection distributes over a split of the listing: the pairs for `a + b` are the
      pairs for `a` followed by those for `b`, which is what keeps listing order. */
  lemma {:induction false} SelectAppend(srcDir: Text, outDir: Text, a: seq<Text>, b: seq<Text>,
                                        whitelist: seq<Text>, blacklist: seq<Text>)
    ensures Select(srcDir, outDir, a + b, whitelist, blacklist)
         == Select(srcDir, outDir, a, whitelist, blacklist) + Select(srcDir, outDir, b, whitelist, blacklist)
    decreases |a|
  {
    if |a| == 0 {
      assert a + b == b;
    } else {
      assert (a + b)[0] == a[0];
      assert (a + b)[1..] == a[1..] + b;
      SelectAppend(srcDir, outDir, a[1..], b, whitelist, blacklist);
    }
  }

  /** A single entry yields its pair exactly when it is selected, and nothing otherwise. */
  lemma SelectOne(srcDir: Text, outDir: Text, name: Text, whitelist: seq<Text>, blacklist: seq<Text>)
    ensures Select(srcDir, outDir, [name], whitelist, blacklist)
         == if Selected(name, whitelist, blacklist) then [TaskFor(srcDir, outDir, name)] else []
  {
    assert [name][1..] == [];
  }

  /** An entry of the listing gets a pair if and only if it is selected. */
  lemma {:induction false} SelectMembership(srcDir: Text, outDir: Text, names: seq<Text>,
                                            whitelist: seq<Text>, blacklist: seq<Text>, name: Text)
    requires name in names
    ensures TaskFor(srcDir, outDir, name) in Select(srcDir, outDir, names, whitelist, blacklist)
        <==> Selected(name, whitelist, blacklist)
    decreases |names|
  {
    if names[0] != name {
      assert name in names[1..];
      SelectMembership(srcDir, outDir, names[1..], whitelist, blacklist, name);
    }
  }

  /** The documented example: `.js` files are processed while `.test.js` files are not. */
  lemma SelectExample()
    ensures Select("src", "out", ["x.js", "x.test.js", "y.txt"], [".js"], [".test.js"])
         == [TaskFor("src", "out", "x.js")]
  {
    var names: seq<Text> := ["x.js", "x.test.js", "y.txt"];
    assert Selected("x.js", [".js"], [".test.js"]) by {
      assert EndsWith("x.js", ".js");
      assert !EndsWith("x.js", ".test.js");
    }
    assert !Selected("x.test.js", [".js"], [".test.js"]) by {
      assert EndsWith("x.test.js", ".test.js");
    }
    assert !Selected("y.txt", [".js"], [".test.js"]) by {
      assert !EndsWith("y.txt", ".js");
    }
    assert names[1..] == ["x.test.js", "y.txt"];
    assert names[1..][1..] == ["y.txt"];
    assert names[1..][1..][1..] == [];
  }

  /** The loop of `files` that fills `filesToProccess` while walking the listing. */
  method SelectFiles(srcDir: Text, outDir: Text, names: seq<Text>,
                     whitelist: seq<Text>, blacklist: seq<Text>) returns (tasks: seq<Task>)
    ensures tasks == Select(srcDir, outDir, names, whitelist, blacklist)
  {
    tasks := [];
    for i := 0 to |names|
      invariant tasks == Select(srcDir, outDir, names[..i], whitelist, blacklist)
    {
      var name := names[i];
      if FileNameMatchesExt(name, whitelist) && !FileNameMatchesExt(name, blacklist) {
        tasks := tasks + [TaskFor(srcDir, outDir, name)];
      }
      SelectAppend(srcDir, outDir, names[..i], [name], whitelist, blacklist);
      SelectOne(srcDir, outDir, name, whitelist, blacklist);
      assert names[..i + 1] == names[..i] + [name];
    }
    assert names[..|names|] == names;
  }
}
